=== FILE: README.md ===
# Wallet ledger service — Dafny model

This project models the ledger core of a small wallet service. The service keeps
a set of wallets and an append-only table of transactions. Each transaction has
a sender id, a receiver id, an integer amount and a type (TRANSFER, FUND or
WITHDRAW). A balance is never stored. `getBalance` derives it with two aggregate
queries: the SUM of amounts the wallet received minus the SUM of amounts it
sent, with an empty SUM (NULL) read as 0.

The operations are:
- `createWallet` and `findOneWallet`;
- `walletTransfer`, which checks the sender exists, then the receiver, then the sender's balance;
- `fundWallet`, which checks the wallet exists and has no balance check;
- `withdrawFromWallet`, which checks the wallet exists, then its balance;
- `processOutFlowRequests`, the queue dispatcher. It routes WITHDRAW and TRANSFER
  requests, ignores every other type and swallows every error.

Each admitted movement saves exactly one row. Each rejection throws before anything is saved.

The model is purely functional:
- `Ledger.State` is the wallet-id set plus the transaction sequence.
- The three money movements (`WalletTransfer`, `FundWallet`, `WithdrawFromWallet`) are functions from a state and a request to a `Response`: the next state and either the saved row (`Ok`) or the thrown error (`Err`, with kind NotFound/Forbidden and the source's message).
- `CreateWallet` returns the pair of the next state and the saved `Wallet`. `FindOneWallet` returns an `Option<Wallet>` and leaves the state alone. `ProcessOutFlowRequests` returns only the next `State`, because it swallows every error.
- The balance query is a filter (`Balance.Where`) followed by an SQL-style `SUM` that yields `None` on no rows and by the `|| 0` coercion.
- Its independent reference is `Balance.NetEffect`, which replays the log row by row.
- `LedgerProperties` covers sequential runs of requests (`Step`, `Run`). It proves that rows are only appended and that well-behaved runs never overdraw a wallet.

Files: `ledger.dfy` (entities), `balance.dfy` (balance calculator),
`wallet_service.dfy` (service operations), `properties.dfy` (cross-operation
properties and end-to-end scenarios).

Two facts about the code shape the model:
- The code has no `amount > 0` check and no InvalidAmount error. Amounts are arbitrary integers. Non-negativity appears only as a hypothesis of the no-overdraw lemmas. `NegativeWithdrawCredits` shows what a negative withdrawal does.
- The code does not serialise concurrent requests. The model is sequential; see Left out.

## Model

| member | source | states |
|---|---|---|
| Balance.GetBalance | src/wallet/wallet.service.ts:127-143 | credit SUM minus debit SUM (NULL read as 0) equals the balance obtained by replaying every row's effect in order |
| Balance.Where | src/wallet/wallet.service.ts:128-138 | a `WHERE <column> = :walletId` selection keeps only rows whose column equals the id, and only rows of the table |
| Balance.SqlSum | src/wallet/wallet.service.ts:130 | SUM over the selected rows is NULL (None) exactly when no row is selected, which is why the result is coerced with `\|\| 0` |
| Balance.WhereContents | src/wallet/wallet.service.ts:128-138 | the selection keeps every matching row exactly as many times as the table holds it, and no other row |
| Balance.QueryIsReplay | src/wallet/wallet.service.ts:140 | the two filtered SUMs with the `\|\| 0` coercion, subtracted, equal the replayed balance for every table |
| Balance.BalanceAfterAppend | src/wallet/wallet.service.ts:127-143 | appending one row changes every id's balance by exactly that row's credit minus its debit |
| Balance.NoRowsNoBalance | src/wallet/wallet.service.ts:140 | an id that no row sends or receives (e.g. on the empty ledger) has balance 0 |
| WalletService.CreateWallet | src/wallet/wallet.service.ts:24-27 | the new wallet is findable afterwards, the table is untouched and no balance changes |
| WalletService.FindOneWallet | src/wallet/wallet.service.ts:123-125 | a wallet is found exactly when its id was created, and it carries that id |
| WalletService.WalletTransfer | src/wallet/wallet.service.ts:51-78 | unknown sender gives NotFound "no sender wallet found" (whatever the receiver); known sender with unknown receiver gives "no receiver wallet found"; Forbidden exactly when both exist and sender balance < amount; admitted iff both exist and balance >= amount, appending exactly the TRANSFER row; a rejection leaves the state unchanged |
| WalletService.FundWallet | src/wallet/wallet.service.ts:80-96 | fails with NotFound "no wallet found" exactly when the wallet is unknown, leaving the state unchanged; otherwise appends exactly one FUND row from the provider to the wallet |
| WalletService.WithdrawFromWallet | src/wallet/wallet.service.ts:98-121 | unknown wallet gives NotFound "no wallet found"; Forbidden exactly when the wallet exists and balance < amount (balance == amount is admitted); otherwise appends exactly one WITHDRAW row to the provider; a rejection leaves the state unchanged |
| WalletService.ProcessOutFlowRequests | src/wallet/wallet.service.ts:36-49 | never fails and never changes the wallet set; a WITHDRAW request saves the withdraw row iff it is admissible, else changes nothing; same for TRANSFER; any other type (FUND) is a no-op |
| LedgerProperties.TransferConservation | src/wallet/wallet.service.ts:70-77 | a successful transfer between distinct wallets lowers the sender by amount, raises the receiver by amount, keeps their sum, and leaves every other id's balance unchanged |
| LedgerProperties.SelfTransferMovesNothing | src/wallet/wallet.service.ts:51-78 | a successful transfer from a wallet to itself leaves every balance unchanged |
| LedgerProperties.FundRaisesBalance | src/wallet/wallet.service.ts:88-95 | a successful funding raises the wallet's balance by amount, lowers the provider id's by amount, and leaves every other id alone |
| LedgerProperties.WithdrawLowersBalance | src/wallet/wallet.service.ts:113-120 | a successful withdrawal lowers the wallet's balance by amount, raises the provider id's by amount, and leaves every other id alone |
| LedgerProperties.WithdrawWholeBalance | src/wallet/wallet.service.ts:106-111 | the withdraw boundary is inclusive: withdrawing exactly the balance of an existing wallet is admitted, whatever the provider id; with a provider id other than the wallet it leaves 0 |
| LedgerProperties.TransferWholeBalance | src/wallet/wallet.service.ts:63-68 | the transfer boundary is inclusive: sending exactly the sender's balance between existing wallets is admitted, even to itself; to a different wallet it leaves the sender at 0 |
| LedgerProperties.NegativeWithdrawCredits | src/wallet/wallet.service.ts:106-111 | with no amount check, a negative withdrawal from an existing wallet with non-negative balance is admitted whatever the provider id; to a provider id other than the wallet it increases the wallet's balance |
| LedgerProperties.Step | src/wallet/wallet.service.ts:24-121 | any single request, admitted or rejected, only appends to the table (the old table is a prefix, at most one row longer) and never removes a wallet |
| LedgerProperties.Run | src/wallet/wallet.service.ts:24-121 | over any sequence of requests the table is append-only (old table is a prefix) and the wallet set only grows |
| LedgerProperties.WithdrawKeepsNoOverdraw | src/wallet/wallet.service.ts:98-121 | from a state with no overdrawn wallet, a withdrawal of a non-negative amount never leaves a known wallet with a negative balance |
| LedgerProperties.TransferKeepsNoOverdraw | src/wallet/wallet.service.ts:51-78 | from a state with no overdrawn wallet, a transfer of a non-negative amount never leaves a known wallet with a negative balance |
| LedgerProperties.StepKeepsNoOverdraw | src/wallet/wallet.service.ts:24-121 | from a state with no overdrawn wallet, one well-behaved request keeps every known wallet's balance non-negative |
| LedgerProperties.RunKeepsNoOverdraw | src/wallet/wallet.service.ts:24-121 | in sequential use, a well-behaved run from a state with no overdrawn wallet ends with no overdrawn wallet |
| LedgerProperties.RunNeverOverdraws | src/wallet/wallet.service.ts:24-121 | in sequential use, a well-behaved run from a state with no overdrawn wallet has no overdrawn wallet after any prefix of its requests |
| LedgerProperties.FundFromWalletOverdraws | src/wallet/wallet.service.ts:80-96 | funding that names another wallet as the payment provider is admitted, and when that wallet's balance is below the amount it ends negative, breaking the no-overdraw invariant |
| LedgerProperties.FundFromWalletExample | src/wallet/wallet.service.ts:88-95 | with fresh wallets A and B, funding A with 10 from provider id B is admitted and leaves B at -10 |
| LedgerProperties.CreateDebitedIdOverdraws | src/wallet/wallet.service.ts:24-27 | after A is funded with 10 from provider P (no wallet overdrawn), creating a wallet with id P yields a wallet at -10 |
| LedgerProperties.EndToEndScenario | src/wallet/wallet.service.ts:24-121 | create A, fund 500, withdraw 200, create B, transfer 300: A has 500, then 300, then 0, and B has 300 |
| LedgerProperties.DoubleWithdrawScenario | src/wallet/wallet.service.ts:98-121 | from balance 100, two sequential withdrawals of 60 to a provider id other than the wallet: first admitted, second Forbidden, final balance 40 |
| LedgerProperties.OverdrawTransferScenario | src/wallet/wallet.service.ts:51-78 | transferring 51 from balance 50 is Forbidden with the sender message and leaves the state unchanged |

"Well-behaved" (`LedgerProperties.WellBehaved`) means all three of these. The service checks none of them:
- amounts are non-negative;
- a funding provider id is not a wallet id;
- a newly created id is not already named by a row.

The non-negative-amount condition and the provider condition are each needed:
- `NegativeWithdrawCredits` shows that a negative amount passes the balance check.
- `FundFromWalletOverdraws` shows that without the provider condition any caller can drive another wallet negative in purely sequential use, because `fundWallet` debits the provider id with no check at all.
- `CreateDebitedIdOverdraws` shows that without the creation condition a new wallet can start with a negative balance.

So `RunKeepsNoOverdraw` and `RunNeverOverdraws` do not hold without these hypotheses.

## Left out

- `sendRequestToOutflowQueue` is a fire-and-forget publish to a message broker with no observable result, so it is not modelled.
- Logging of the caught error and the commented-out user notifications are side-channel I/O, so they are not modelled.
- Concurrency is not modelled. The check-then-act race between the balance read and the insert disappears because each operation is atomic and requests run one after the other. The no-overdraw result therefore holds only for sequential use.
- The ORM repositories and query builder are replaced by an immutable wallet set and transaction sequence. Saving a wallet under an id that already exists leaves the set as it was.
- Generated row ids, timestamps and the wallet's other attributes (owner, creation time) are left out. No property depends on them. The store-generated wallet id is a parameter of `CreateWallet`.
- JavaScript number coercion of raw SQL SUM results is not modelled, and neither are floating-point amounts. Amounts are unbounded integers.
- DTO validation and the error classes themselves are not modelled. Errors are a kind (NotFound/Forbidden) plus the message string.
- A queued request whose payload shape does not match its transaction type cannot be represented. The request is a tagged variant, and the source would read undefined fields in that case.
- Store failures (connectivity, timeouts) are not modelled. Every read and save succeeds.
- LedgerProperties.FundRaisesBalance: stated only when the provider id differs from the wallet id. When they are equal, the row credits and debits the same id and no balance moves.
- LedgerProperties.WithdrawLowersBalance: likewise stated only when the provider id differs from the wallet id.

=== FILE: balance.dfy ===
/** The balance calculator. A balance is never stored: it is derived from the
    transaction table by two aggregate queries, total credit (rows received)
    minus total debit (rows sent). */
module Balance {
  import opened Ledger

  /** The column a query filters on. */
  datatype Column = ReceiverId | SenderId

  function Field(t: Transaction, col: Column): string
  {
    match col
    case ReceiverId => t.receiverId
    case SenderId => t.senderId
  }

  /** The rows a `WHERE <col> = :walletId` query selects, in table order,
      each with the multiplicity it has in the table. */
  function Where(rows: seq<Transaction>, col: Column, walletId: WalletId): (r: seq<Transaction>)
    ensures |r| <= |rows|
    ensures forall t :: t in r ==> t in rows && Field(t, col) == walletId
  {
    if |rows| == 0 then []
    else
      (if Field(rows[0], col) == walletId then [rows[0]] else []) + Where(rows[1..], col, walletId)
  }

  /** The filter keeps every matching row as often as the table holds it and
      drops every other row. */
  lemma {:induction false} WhereContents(rows: seq<Transaction>, col: Column, walletId: WalletId, t: Transaction)
    ensures multiset(Where(rows, col, walletId))[t]
         == if Field(t, col) == walletId then multiset(rows)[t] else 0
    decreases |rows|
  {
    if |rows| > 0 {
      assert rows == [rows[0]] + rows[1..];
      WhereContents(rows[1..], col, walletId, t);
    }
  }

  /** The total of the amounts of a row set, `SUM(transaction.amount)` when
      the set is non-empty. */
  function SumAmount(rows: seq<Transaction>): int
  {
    if |rows| == 0 then 0 else rows[0].amount + SumAmount(rows[1..])
  }

  /** An SQL aggregate: `SUM` over no rows is NULL, modelled as `None`. */
  function SqlSum(rows: seq<Transaction>): (r: Option<int>)
    ensures r.None? <==> |rows| == 0
  {
    if |rows| == 0 then None else Some(SumAmount(rows))
  }

  /** The `sum || 0` coercion of a possibly missing aggregate. */
  function OrZero(sum: Option<int>): int
  {
    match sum
    case None => 0
    case Some(v) => v
  }

  /** What one row does to a wallet's balance: its amount is credited when
      the wallet receives it and debited when the wallet sends it. */
  function Effect(t: Transaction, walletId: WalletId): int
  {
    (if t.receiverId == walletId then t.amount else 0)
    - (if t.senderId == walletId then t.amount else 0)
  }

  /** Reference definition: the balance obtained by replaying the log in
      order, applying each row's effect to a balance that starts at 0. */
  function NetEffect(rows: seq<Transaction>, walletId: WalletId): int
  {
    if |rows| == 0 then 0
    else NetEffect(rows[..|rows| - 1], walletId) + Effect(rows[|rows| - 1], walletId)
  }

  /** `getBalance`: total credit minus total debit, each a filtered SUM with
      NULL read as 0. It agrees with replaying the log. */
  function GetBalance(s: State, walletId: WalletId): (balance: int)
    ensures balance == NetEffect(s.transactions, walletId)
  {
    var totalCredit := SqlSum(Where(s.transactions, ReceiverId, walletId));
    var totalDebit := SqlSum(Where(s.transactions, SenderId, walletId));
    QueryIsReplay(s.transactions, walletId);
    OrZero(totalCredit) - OrZero(totalDebit)
  }

  lemma {:induction false} SumAmountConcat(a: seq<Transaction>, b: seq<Transaction>)
    ensures SumAmount(a + b) == SumAmount(a) + SumAmount(b)
    decreases |a|
  {
    if |a| == 0 {
      assert a + b == b;
    } else {
      assert (a + b)[1..] == a[1..] + b;
      SumAmountConcat(a[1..], b);
    }
  }

  lemma {:induction false} WhereAppend(rows: seq<Transaction>, t: Transaction, col: Column, walletId: WalletId)
    ensures Where(rows + [t], col, walletId)
         == Where(rows, col, walletId) + (if Field(t, col) == walletId then [t] else [])
    decreases |rows|
  {
    if |rows| == 0 {
      assert rows + [t] == [t];
    } else {
      var head := if Field(rows[0], col) == walletId then [rows[0]] else [];
      var last := if Field(t, col) == walletId then [t] else [];
      assert (rows + [t])[0] == rows[0];
      assert (rows + [t])[1..] == rows[1..] + [t];
      calc {
        Where(rows + [t], col, walletId);
        head + Where(rows[1..] + [t], col, walletId);
        { WhereAppend(rows[1..], t, col, walletId); }
        head + (Where(rows[1..], col, walletId) + last);
        (head + Where(rows[1..], col, walletId)) + last;
        Where(rows, col, walletId) + last;
      }
    }
  }

  /** One more row adds its amount to a column's total exactly when the row
      matches the filter. */
  lemma ColumnTotalAppend(rows: seq<Transaction>, t: Transaction, col: Column, walletId: WalletId)
    ensures SumAmount(Where(rows + [t], col, walletId))
         == SumAmount(Where(rows, col, walletId)) + (if Field(t, col) == walletId then t.amount else 0)
  {
    var last := if Field(t, col) == walletId then [t] else [];
    WhereAppend(rows, t, col, walletId);
    SumAmountConcat(Where(rows, col, walletId), last);
    assert SumAmount(last) == if Field(t, col) == walletId then t.amount else 0;
  }

  /** A missing aggregate read as 0 is the plain sum. */
  lemma OrZeroSqlSum(rows: seq<Transaction>)
    ensures OrZero(SqlSum(rows)) == SumAmount(rows)
  {
  }

  /** The two aggregate queries compute the replayed balance. */
  lemma {:induction false} QueryIsReplay(rows: seq<Transaction>, walletId: WalletId)
    ensures OrZero(SqlSum(Where(rows, ReceiverId, walletId)))
          - OrZero(SqlSum(Where(rows, SenderId, walletId)))
         == NetEffect(rows, walletId)
    decreases |rows|
  {
    OrZeroSqlSum(Where(rows, ReceiverId, walletId));
    OrZeroSqlSum(Where(rows, SenderId, walletId));
    if |rows| > 0 {
      var init, t := rows[..|rows| - 1], rows[|rows| - 1];
      assert rows == init + [t];
      QueryIsReplay(init, walletId);
      OrZeroSqlSum(Where(init, ReceiverId, walletId));
      OrZeroSqlSum(Where(init, SenderId, walletId));
      ColumnTotalAppend(init, t, ReceiverId, walletId);
      ColumnTotalAppend(init, t, SenderId, walletId);
    }
  }

  /** Appending one row changes every wallet's balance by that row's effect,
      whatever happens to the wallet set. */
  lemma BalanceAfterAppend(s: State, s': State, t: Transaction)
    requires s'.transactions == s.transactions + [t]
    ensures forall w :: GetBalance(s', w) == GetBalance(s, w) + Effect(t, w)
  {
    assert s'.transactions[..|s'.transactions| - 1] == s.transactions;
  }

  /** A wallet that appears in no row has balance 0; in particular every
      wallet has balance 0 on the empty ledger. */
  lemma {:induction false} NoRowsNoBalance(s: State, walletId: WalletId)
    requires forall t :: t in s.transactions ==> t.senderId != walletId && t.receiverId != walletId
    ensures GetBalance(s, walletId) == 0
  {
    NoRowsNoEffect(s.transactions, walletId);
  }

  lemma {:induction false} NoRowsNoEffect(rows: seq<Transaction>, walletId: WalletId)
    requires forall t :: t in rows ==> t.senderId != walletId && t.receiverId != walletId
    ensures NetEffect(rows, walletId) == 0
    decreases |rows|
  {
    if |rows| > 0 {
      var init := rows[..|rows| - 1];
      assert forall t :: t in init ==> t in rows;
      assert rows[|rows| - 1] in rows;
      NoRowsNoEffect(init, walletId);
    }
  }

  /** Balances depend on the transaction table alone. */
  lemma BalanceIgnoresWallets(s: State, s': State)
    requires s'.transactions == s.transactions
    ensures forall w :: GetBalance(s', w) == GetBalance(s, w)
  {
  }
}

=== FILE: ledger.dfy ===
/** Entities of the wallet ledger: wallets, the append-only transaction log,
    and the failure-carrying datatypes the service operations return. */
module Ledger {

  /** Wallet ids and payment-provider ids are opaque strings. */
  type WalletId = string

  datatype TransactionType = TRANSFER | FUND | WITHDRAW

  /** One saved ledger row. The generated id and the creation timestamp are
      not part of the model: no property depends on them. */
  datatype Transaction = Transaction(
    senderId: string,
    receiverId: string,
    amount: int,
    transactionType: TransactionType)

  /** A wallet record, reduced to its identity. */
  datatype Wallet = Wallet(id: WalletId)

  /** The persistent state: the set of known wallet ids and the transaction
      table, in insertion order. */
  datatype State = State(wallets: set<WalletId>, transactions: seq<Transaction>)

  const EmptyState: State := State({}, [])

  datatype Option<+T> = None | Some(value: T)

  /** The two error classes the service throws. */
  datatype ErrorKind = NotFound | Forbidden

  datatype Error = Error(kind: ErrorKind, message: string)

  /** A thrown error (`Err`) or a returned value (`Ok`). */
  datatype Result<+T> = Ok(value: T) | Err(error: Error)
}

=== FILE: properties.dfy ===
/** Properties of the wallet service: how each movement changes balances,
    the inclusive balance boundary, and what holds over any sequential run of
    requests (the table only grows; no wallet is overdrawn). */
module LedgerProperties {
  import opened Ledger
  import opened Balance
  import opened WalletService

  /** A successful transfer between two different wallets lowers the
      sender's balance by the amount, raises the receiver's by the amount,
      keeps their sum and leaves every other id's balance alone. */
  lemma TransferConservation(s: State, dto: WalletTransferDto)
    requires WalletTransfer(s, dto).outcome.Ok?
    requires dto.senderWalletId != dto.receiverWalletId
    ensures var s' := WalletTransfer(s, dto).state;
      && GetBalance(s', dto.senderWalletId) == GetBalance(s, dto.senderWalletId) - dto.amount
      && GetBalance(s', dto.receiverWalletId) == GetBalance(s, dto.receiverWalletId) + dto.amount
      && GetBalance(s', dto.senderWalletId) + GetBalance(s', dto.receiverWalletId)
         == GetBalance(s, dto.senderWalletId) + GetBalance(s, dto.receiverWalletId)
      && forall w :: w != dto.senderWalletId && w != dto.receiverWalletId
                     ==> GetBalance(s', w) == GetBalance(s, w)
  {
    BalanceAfterAppend(s, WalletTransfer(s, dto).state, TransferRecord(dto));
  }

  /** A transfer from a wallet to itself is admitted like any other but
      moves no balance at all. */
  lemma SelfTransferMovesNothing(s: State, dto: WalletTransferDto)
    requires WalletTransfer(s, dto).outcome.Ok?
    requires dto.senderWalletId == dto.receiverWalletId
    ensures forall w :: GetBalance(WalletTransfer(s, dto).state, w) == GetBalance(s, w)
  {
    BalanceAfterAppend(s, WalletTransfer(s, dto).state, TransferRecord(dto));
  }

  /** Funding raises the wallet's balance by the amount, lowers the payment
      provider's, and leaves every other id's balance alone. */
  lemma FundRaisesBalance(s: State, dto: WalletFundFlowDto)
    requires FundWallet(s, dto).outcome.Ok?
    requires dto.paymentProviderId != dto.walletId
    ensures var s' := FundWallet(s, dto).state;
      && GetBalance(s', dto.walletId) == GetBalance(s, dto.walletId) + dto.amount
      && GetBalance(s', dto.paymentProviderId) == GetBalance(s, dto.paymentProviderId) - dto.amount
      && forall w :: w != dto.walletId && w != dto.paymentProviderId
                     ==> GetBalance(s', w) == GetBalance(s, w)
  {
    BalanceAfterAppend(s, FundWallet(s, dto).state, FundRecord(dto));
  }

  /** Withdrawing lowers the wallet's balance by the amount, raises the
      payment provider's, and leaves every other id's balance alone. */
  lemma WithdrawLowersBalance(s: State, dto: WalletFundFlowDto)
    requires WithdrawFromWallet(s, dto).outcome.Ok?
    requires dto.paymentProviderId != dto.walletId
    ensures var s' := WithdrawFromWallet(s, dto).state;
      && GetBalance(s', dto.walletId) == GetBalance(s, dto.walletId) - dto.amount
      && GetBalance(s', dto.paymentProviderId) == GetBalance(s, dto.paymentProviderId) + dto.amount
      && forall w :: w != dto.walletId && w != dto.paymentProviderId
                     ==> GetBalance(s', w) == GetBalance(s, w)
  {
    BalanceAfterAppend(s, WithdrawFromWallet(s, dto).state, WithdrawRecord(dto));
  }

  /** The balance boundary is inclusive: withdrawing exactly the balance of
      an existing wallet is admitted. When the provider is a different id,
      the withdrawal empties the wallet. */
  lemma WithdrawWholeBalance(s: State, dto: WalletFundFlowDto)
    requires dto.walletId in s.wallets
    requires GetBalance(s, dto.walletId) == dto.amount
    ensures WithdrawFromWallet(s, dto).outcome.Ok?
    ensures dto.paymentProviderId != dto.walletId
            ==> GetBalance(WithdrawFromWallet(s, dto).state, dto.walletId) == 0
  {
    if dto.paymentProviderId != dto.walletId {
      WithdrawLowersBalance(s, dto);
    }
  }

  /** Likewise a transfer of the sender's whole balance between existing
      wallets is admitted. When the receiver is a different wallet, the
      sender is left at 0. */
  lemma TransferWholeBalance(s: State, dto: WalletTransferDto)
    requires dto.senderWalletId in s.wallets && dto.receiverWalletId in s.wallets
    requires GetBalance(s, dto.senderWalletId) == dto.amount
    ensures WalletTransfer(s, dto).outcome.Ok?
    ensures dto.senderWalletId != dto.receiverWalletId
            ==> GetBalance(WalletTransfer(s, dto).state, dto.senderWalletId) == 0
  {
    if dto.senderWalletId != dto.receiverWalletId {
      TransferConservation(s, dto);
    }
  }

  /** There is no amount check: a withdrawal of a negative amount from an
      existing wallet with a non-negative balance always passes the balance
      check, whatever the provider id. When the provider is a different id,
      it credits the wallet. */
  lemma NegativeWithdrawCredits(s: State, dto: WalletFundFlowDto)
    requires dto.walletId in s.wallets
    requires GetBalance(s, dto.walletId) >= 0 && dto.amount < 0
    ensures WithdrawFromWallet(s, dto).outcome.Ok?
    ensures dto.paymentProviderId != dto.walletId
            ==> GetBalance(WithdrawFromWallet(s, dto).state, dto.walletId) > GetBalance(s, dto.walletId)
  {
    if dto.paymentProviderId != dto.walletId {
      WithdrawLowersBalance(s, dto);
    }
  }

  /** One request of a sequential run. */
  datatype Op =
    | CreateOp(id: WalletId)
    | FundOp(fund: WalletFundFlowDto)
    | WithdrawOp(withdraw: WalletFundFlowDto)
    | TransferOp(transfer: WalletTransferDto)
    | OutFlowOp(request: OutFlowRequest)

  /** The state after one request, whether it succeeded or threw. */
  function Step(s: State, op: Op): (s': State)
    ensures s.wallets <= s'.wallets
    ensures s.transactions <= s'.transactions
    ensures |s'.transactions| <= |s.transactions| + 1
  {
    match op
    case CreateOp(id) => CreateWallet(s, id).0
    case FundOp(dto) => FundWallet(s, dto).state
    case WithdrawOp(dto) => WithdrawFromWallet(s, dto).state
    case TransferOp(dto) => WalletTransfer(s, dto).state
    case OutFlowOp(request) => ProcessOutFlowRequests(s, request)
  }

  /** The state after a run of requests, one after the other. The table
      only grows at its end: the earlier table is a prefix of the later one. */
  function Run(s: State, ops: seq<Op>): (s': State)
    ensures s.wallets <= s'.wallets
    ensures s.transactions <= s'.transactions
    ensures |s'.transactions| <= |s.transactions| + |ops|
    decreases |ops|
  {
    if |ops| == 0 then s else Run(Step(s, ops[0]), ops[1..])
  }

  /** No known wallet has a negative balance. */
  ghost predicate NoOverdraw(s: State)
  {
    forall w :: w in s.wallets ==> GetBalance(s, w) >= 0
  }

  /** The caller-side conditions under which a request cannot overdraw a
      wallet; the service itself checks none of them. Amounts are
      non-negative, a funding provider is not a wallet, and a new wallet id
      is either already known or not mentioned by any row. */
  ghost predicate WellBehaved(s: State, op: Op)
  {
    match op
    case CreateOp(id) =>
      id in s.wallets || forall t :: t in s.transactions ==> t.senderId != id && t.receiverId != id
    case FundOp(dto) => dto.amount >= 0 && dto.paymentProviderId !in s.wallets
    case WithdrawOp(dto) => dto.amount >= 0
    case TransferOp(dto) => dto.amount >= 0
    case OutFlowOp(request) =>
      match request
      case WithdrawRequest(dto) => dto.amount >= 0
      case TransferRequest(dto) => dto.amount >= 0
      case FundRequest(_) => true
  }

  ghost predicate WellBehavedRun(s: State, ops: seq<Op>)
    decreases |ops|
  {
    |ops| == 0 || (WellBehaved(s, ops[0]) && WellBehavedRun(Step(s, ops[0]), ops[1..]))
  }

  lemma WithdrawKeepsNoOverdraw(s: State, dto: WalletFundFlowDto)
    requires NoOverdraw(s) && dto.amount >= 0
    ensures NoOverdraw(WithdrawFromWallet(s, dto).state)
  {
    var s' := WithdrawFromWallet(s, dto).state;
    if WithdrawFromWallet(s, dto).outcome.Ok? {
      BalanceAfterAppend(s, s', WithdrawRecord(dto));
      forall w | w in s'.wallets
        ensures GetBalance(s', w) >= 0
      {
        assert GetBalance(s', w) == GetBalance(s, w) + Effect(WithdrawRecord(dto), w);
      }
    }
  }

  lemma TransferKeepsNoOverdraw(s: State, dto: WalletTransferDto)
    requires NoOverdraw(s) && dto.amount >= 0
    ensures NoOverdraw(WalletTransfer(s, dto).state)
  {
    var s' := WalletTransfer(s, dto).state;
    if WalletTransfer(s, dto).outcome.Ok? {
      BalanceAfterAppend(s, s', TransferRecord(dto));
      forall w | w in s'.wallets
        ensures GetBalance(s', w) >= 0
      {
        assert GetBalance(s', w) == GetBalance(s, w) + Effect(TransferRecord(dto), w);
      }
    }
  }

  /** One well-behaved request keeps every wallet out of overdraft. */
  lemma StepKeepsNoOverdraw(s: State, op: Op)
    requires NoOverdraw(s) && WellBehaved(s, op)
    ensures NoOverdraw(Step(s, op))
  {
    var s' := Step(s, op);
    match op
    case CreateOp(id) =>
      BalanceIgnoresWallets(s, s');
      if id !in s.wallets {
        NoRowsNoBalance(s, id);
      }
    case FundOp(dto) =>
      if FundWallet(s, dto).outcome.Ok? {
        BalanceAfterAppend(s, s', FundRecord(dto));
        forall w | w in s'.wallets
          ensures GetBalance(s', w) >= 0
        {
          assert GetBalance(s', w) == GetBalance(s, w) + Effect(FundRecord(dto), w);
        }
      }
    case WithdrawOp(dto) =>
      WithdrawKeepsNoOverdraw(s, dto);
    case TransferOp(dto) =>
      TransferKeepsNoOverdraw(s, dto);
    case OutFlowOp(request) =>
      match request
      case WithdrawRequest(dto) => WithdrawKeepsNoOverdraw(s, dto);
      case TransferRequest(dto) => TransferKeepsNoOverdraw(s, dto);
      case FundRequest(_) =>
  }

  /** Run sequentially from a state with no overdrawn wallet (the empty
      ledger, say), well-behaved requests never overdraw any wallet. */
  lemma {:induction false} RunKeepsNoOverdraw(s: State, ops: seq<Op>)
    requires NoOverdraw(s) && WellBehavedRun(s, ops)
    ensures NoOverdraw(Run(s, ops))
    decreases |ops|
  {
    if |ops| > 0 {
      StepKeepsNoOverdraw(s, ops[0]);
      RunKeepsNoOverdraw(Step(s, ops[0]), ops[1..]);
    }
  }

  /** A well-behaved run stays well-behaved when cut short. */
  lemma {:induction false} WellBehavedPrefix(s: State, ops: seq<Op>, k: nat)
    requires WellBehavedRun(s, ops) && k <= |ops|
    ensures WellBehavedRun(s, ops[..k])
    decreases k
  {
    if k > 0 {
      assert ops[..k][0] == ops[0];
      assert ops[..k][1..] == ops[1..][..k - 1];
      WellBehavedPrefix(Step(s, ops[0]), ops[1..], k - 1);
    }
  }

  /** No wallet is overdrawn at any point of a well-behaved sequential run
      from a state with no overdrawn wallet: after every prefix of requests,
      not only after the last one. */
  lemma RunNeverOverdraws(s: State, ops: seq<Op>)
    requires NoOverdraw(s) && WellBehavedRun(s, ops)
    ensures forall k :: 0 <= k <= |ops| ==> NoOverdraw(Run(s, ops[..k]))
  {
    forall k | 0 <= k <= |ops|
      ensures NoOverdraw(Run(s, ops[..k]))
    {
      WellBehavedPrefix(s, ops, k);
      RunKeepsNoOverdraw(s, ops[..k]);
    }
  }

  /** Without the funding condition the invariant fails: funding names the
      payment provider as the sender and checks neither its existence nor
      its balance, so naming another wallet as the provider is admitted and
      drives that wallet below zero. */
  lemma FundFromWalletOverdraws(s: State, dto: WalletFundFlowDto)
    requires dto.walletId in s.wallets && dto.paymentProviderId in s.wallets
    requires dto.paymentProviderId != dto.walletId
    requires GetBalance(s, dto.paymentProviderId) < dto.amount
    ensures FundWallet(s, dto).outcome.Ok?
    ensures GetBalance(FundWallet(s, dto).state, dto.paymentProviderId) < 0
    ensures !NoOverdraw(FundWallet(s, dto).state)
  {
    FundRaisesBalance(s, dto);
  }

  /** The same with two fresh wallets: funding A with 10 from wallet B is
      admitted and leaves B at -10. */
  lemma FundFromWalletExample()
    ensures var r := FundWallet(State({"A", "B"}, []), WalletFundFlowDto("A", 10, "B"));
      r.outcome.Ok? && GetBalance(r.state, "B") == -10
  {
    var s := State({"A", "B"}, []);
    NoRowsNoBalance(s, "B");
    FundFromWalletOverdraws(s, WalletFundFlowDto("A", 10, "B"));
  }

  /** Without the creation condition the invariant fails too: after A is
      funded with 10 from provider P, creating a wallet whose id is P yields
      a wallet that starts at -10. */
  lemma CreateDebitedIdOverdraws()
    ensures var s1 := FundWallet(CreateWallet(EmptyState, "A").0, WalletFundFlowDto("A", 10, "P")).state;
      var s2 := CreateWallet(s1, "P").0;
      && NoOverdraw(s1)
      && GetBalance(s2, "P") == -10
      && !NoOverdraw(s2)
  {
    var s0 := CreateWallet(EmptyState, "A").0;
    assert s0 == State({"A"}, []);
    NoRowsNoBalance(s0, "A");
    NoRowsNoBalance(s0, "P");
    var dto := WalletFundFlowDto("A", 10, "P");
    FundRaisesBalance(s0, dto);
    var s1 := FundWallet(s0, dto).state;
    assert s1.wallets == {"A"};
    assert GetBalance(s1, "A") == 10;
  }

  /** Fund A with 500, withdraw 200, then transfer the remaining 300 to a new
      wallet B: A ends at 0 and B at 300. */
  lemma EndToEndScenario()
    ensures var s0 := CreateWallet(EmptyState, "A").0;
      var r1 := FundWallet(s0, WalletFundFlowDto("A", 500, "P"));
      var r2 := WithdrawFromWallet(r1.state, WalletFundFlowDto("A", 200, "P"));
      var s3 := CreateWallet(r2.state, "B").0;
      var r4 := WalletTransfer(s3, WalletTransferDto("A", "B", 300));
      && GetBalance(s0, "A") == 0
      && r1.outcome.Ok? && GetBalance(r1.state, "A") == 500
      && r2.outcome.Ok? && GetBalance(r2.state, "A") == 300
      && r4.outcome.Ok? && GetBalance(r4.state, "A") == 0 && GetBalance(r4.state, "B") == 300
  {
    var s0 := CreateWallet(EmptyState, "A").0;
    assert s0 == State({"A"}, []);
    NoRowsNoBalance(s0, "A");
    var d1 := WalletFundFlowDto("A", 500, "P");
    assert CanFund(s0, d1);
    FundRaisesBalance(s0, d1);
    var s1 := FundWallet(s0, d1).state;
    assert GetBalance(s1, "A") == 500;
    var d2 := WalletFundFlowDto("A", 200, "P");
    assert CanWithdraw(s1, d2);
    WithdrawLowersBalance(s1, d2);
    var s2 := WithdrawFromWallet(s1, d2).state;
    assert s2.transactions == [FundRecord(d1), WithdrawRecord(d2)];
    assert GetBalance(s2, "A") == 300;
    var s3 := CreateWallet(s2, "B").0;
    assert s3 == State({"A", "B"}, s2.transactions);
    assert GetBalance(s3, "A") == 300;
    assert forall t :: t in s3.transactions ==> t.senderId != "B" && t.receiverId != "B";
    NoRowsNoBalance(s3, "B");
    var d4 := WalletTransferDto("A", "B", 300);
    assert CanTransfer(s3, d4);
    TransferConservation(s3, d4);
  }

  /** Two sequential withdrawals of 60 from a balance of 100: the first is
      admitted, the second is forbidden, and the balance ends at 40. */
  lemma DoubleWithdrawScenario(s: State, w: WalletId, p: string)
    requires w in s.wallets && p != w && GetBalance(s, w) == 100
    ensures var r1 := WithdrawFromWallet(s, WalletFundFlowDto(w, 60, p));
      var r2 := WithdrawFromWallet(r1.state, WalletFundFlowDto(w, 60, p));
      && r1.outcome.Ok?
      && r2.outcome == Err(Error(Forbidden, UserBalanceInsufficient))
      && GetBalance(r2.state, w) == 40
  {
    WithdrawLowersBalance(s, WalletFundFlowDto(w, 60, p));
  }

  /** A transfer of 51 from a balance of 50 is forbidden; nothing is saved
      and no balance moves. */
  lemma OverdrawTransferScenario(s: State, a: WalletId, b: WalletId)
    requires a in s.wallets && b in s.wallets && GetBalance(s, a) == 50
    ensures var r := WalletTransfer(s, WalletTransferDto(a, b, 51));
      && r.outcome == Err(Error(Forbidden, SenderBalanceInsufficient))
      && r.state == s
  {
  }
}

=== FILE: wallet_service.dfy ===
/** The wallet service: wallet creation and lookup, the three money
    movements (transfer, fund, withdraw) and the outflow-queue dispatcher.
    Each movement runs a fixed sequence of existence checks, then at most one
    balance check, and then saves exactly one transaction row. A thrown error
    happens before the save, so a rejected request leaves the state as it was. */
module WalletService {
  import opened Ledger
  import opened Balance

  datatype WalletTransferDto = WalletTransferDto(
    senderWalletId: WalletId,
    receiverWalletId: WalletId,
    amount: int)

  /** The payload of both funding and withdrawing. */
  datatype WalletFundFlowDto = WalletFundFlowDto(
    walletId: WalletId,
    amount: int,
    paymentProviderId: string)

  /** A queued outflow request, tagged by its transaction type. */
  datatype OutFlowRequest =
    | WithdrawRequest(withdraw: WalletFundFlowDto)
    | TransferRequest(transfer: WalletTransferDto)
    | FundRequest(fund: WalletFundFlowDto)
  {
    function TransactionTypeOf(): TransactionType
    {
      match this
      case WithdrawRequest(_) => WITHDRAW
      case TransferRequest(_) => TRANSFER
      case FundRequest(_) => FUND
    }
  }

  /** The state after a request, and what the request returned or threw. */
  datatype Response = Response(state: State, outcome: Result<Transaction>)

  const NoSenderWalletFound := "no sender wallet found"
  const NoReceiverWalletFound := "no receiver wallet found"
  const NoWalletFound := "no wallet found"
  const SenderBalanceInsufficient := "sender's balance is insufficient for this operation"
  const UserBalanceInsufficient := "user's balance is insufficient for this operation"

  /** The row each successful movement saves. */
  function TransferRecord(dto: WalletTransferDto): Transaction
  {
    Transaction(dto.senderWalletId, dto.receiverWalletId, dto.amount, TRANSFER)
  }

  function FundRecord(dto: WalletFundFlowDto): Transaction
  {
    Transaction(dto.paymentProviderId, dto.walletId, dto.amount, FUND)
  }

  function WithdrawRecord(dto: WalletFundFlowDto): Transaction
  {
    Transaction(dto.walletId, dto.paymentProviderId, dto.amount, WITHDRAW)
  }

  /** `State` with one more row at the end of the table. */
  function Appended(s: State, t: Transaction): State
  {
    State(s.wallets, s.transactions + [t])
  }

  /** When each movement is admitted: every wallet it names exists and, for a
      debit, the debited wallet's balance is at least the amount. */
  predicate CanTransfer(s: State, dto: WalletTransferDto)
  {
    && dto.senderWalletId in s.wallets
    && dto.receiverWalletId in s.wallets
    && GetBalance(s, dto.senderWalletId) >= dto.amount
  }

  predicate CanFund(s: State, dto: WalletFundFlowDto)
  {
    dto.walletId in s.wallets
  }

  predicate CanWithdraw(s: State, dto: WalletFundFlowDto)
  {
    dto.walletId in s.wallets && GetBalance(s, dto.walletId) >= dto.amount
  }

  /** `createWallet`: saves a wallet under the id the store generates (here a
      parameter). No transaction is written, so no balance moves. */
  function CreateWallet(s: State, id: WalletId): (r: (State, Wallet))
    ensures r.1.id == id
    ensures r.0.wallets == s.wallets + {id}
    ensures FindOneWallet(r.0, id) == Some(r.1)
    ensures r.0.transactions == s.transactions
    ensures forall w :: GetBalance(r.0, w) == GetBalance(s, w)
  {
    var wallet := Wallet(id);
    var s' := State(s.wallets + {wallet.id}, s.transactions);
    BalanceIgnoresWallets(s, s');
    (s', wallet)
  }

  /** `findOneWallet`: the wallet with the given id, if one was created. */
  function FindOneWallet(s: State, id: WalletId): (r: Option<Wallet>)
    ensures r.Some? <==> id in s.wallets
    ensures r.Some? ==> r.value.id == id
  {
    if id in s.wallets then Some(Wallet(id)) else None
  }

  /** `walletTransfer`: sender lookup, then receiver lookup, then the
      sender's balance check; only then is the TRANSFER row saved. */
  function WalletTransfer(s: State, dto: WalletTransferDto): (r: Response)
    ensures r.outcome.Ok? <==> CanTransfer(s, dto)
    ensures r.outcome.Ok? ==> r.outcome.value == TransferRecord(dto) && r.state == Appended(s, TransferRecord(dto))
    ensures r.outcome.Err? ==> r.state == s
    ensures dto.senderWalletId !in s.wallets
            ==> r.outcome == Err(Error(NotFound, NoSenderWalletFound))
    ensures dto.senderWalletId in s.wallets && dto.receiverWalletId !in s.wallets
            ==> r.outcome == Err(Error(NotFound, NoReceiverWalletFound))
    ensures r.outcome == Err(Error(Forbidden, SenderBalanceInsufficient))
            <==> dto.senderWalletId in s.wallets && dto.receiverWalletId in s.wallets
                 && GetBalance(s, dto.senderWalletId) < dto.amount
  {
    if FindOneWallet(s, dto.senderWalletId).None? then
      Response(s, Err(Error(NotFound, NoSenderWalletFound)))
    else if FindOneWallet(s, dto.receiverWalletId).None? then
      Response(s, Err(Error(NotFound, NoReceiverWalletFound)))
    else
      var senderBalance := GetBalance(s, dto.senderWalletId);
      if senderBalance < dto.amount then
        Response(s, Err(Error(Forbidden, SenderBalanceInsufficient)))
      else
        var transaction := TransferRecord(dto);
        Response(Appended(s, transaction), Ok(transaction))
  }

  /** `fundWallet`: wallet lookup, then the FUND row from the payment
      provider to the wallet is saved; there is no balance check. */
  function FundWallet(s: State, dto: WalletFundFlowDto): (r: Response)
    ensures r.outcome.Ok? <==> CanFund(s, dto)
    ensures r.outcome.Ok? ==> r.outcome.value == FundRecord(dto) && r.state == Appended(s, FundRecord(dto))
    ensures r.outcome.Err? ==> r.state == s && r.outcome.error == Error(NotFound, NoWalletFound)
  {
    if FindOneWallet(s, dto.walletId).None? then
      Response(s, Err(Error(NotFound, NoWalletFound)))
    else
      var transaction := FundRecord(dto);
      Response(Appended(s, transaction), Ok(transaction))
  }

  /** `withdrawFromWallet`: wallet lookup, then the wallet's balance check;
      only then is the WITHDRAW row to the payment provider saved. */
  function WithdrawFromWallet(s: State, dto: WalletFundFlowDto): (r: Response)
    ensures r.outcome.Ok? <==> CanWithdraw(s, dto)
    ensures r.outcome.Ok? ==> r.outcome.value == WithdrawRecord(dto) && r.state == Appended(s, WithdrawRecord(dto))
    ensures r.outcome.Err? ==> r.state == s
    ensures dto.walletId !in s.wallets ==> r.outcome == Err(Error(NotFound, NoWalletFound))
    ensures r.outcome == Err(Error(Forbidden, UserBalanceInsufficient))
            <==> dto.walletId in s.wallets && GetBalance(s, dto.walletId) < dto.amount
  {
    if FindOneWallet(s, dto.walletId).None? then
      Response(s, Err(Error(NotFound, NoWalletFound)))
    else
      var walletBalance := GetBalance(s, dto.walletId);
      if walletBalance < dto.amount then
        Response(s, Err(Error(Forbidden, UserBalanceInsufficient)))
      else
        var transaction := WithdrawRecord(dto);
        Response(Appended(s, transaction), Ok(transaction))
  }

  /** `processOutFlowRequests`: WITHDRAW and TRANSFER requests are routed to
      their operation and any other type is ignored. Every error is caught,
      so the dispatcher itself never fails: it yields the state the routed
      operation left, which is the old state when that operation threw. */
  function ProcessOutFlowRequests(s: State, request: OutFlowRequest): (s': State)
    ensures s'.wallets == s.wallets
    ensures request.TransactionTypeOf() == WITHDRAW
            ==> s' == if CanWithdraw(s, request.withdraw) then Appended(s, WithdrawRecord(request.withdraw)) else s
    ensures request.TransactionTypeOf() == TRANSFER
            ==> s' == if CanTransfer(s, request.transfer) then Appended(s, TransferRecord(request.transfer)) else s
    ensures request.TransactionTypeOf() == FUND ==> s' == s
  {
    match request
    case WithdrawRequest(dto) => WithdrawFromWallet(s, dto).state
    case TransferRequest(dto) => WalletTransfer(s, dto).state
    case FundRequest(_) => s
  }
}
